=== FILE: README.md ===
# Neutrino orchestrator, modelled in Dafny

This project models the `Neutrino` class in `packages/neutrino/src/neutrino.js`. The class is a
build-configuration orchestrator. Its constructor loads a list of presets. Each preset reference is
looked up in three candidate places. The first module that loads is invoked with the instance, and a
project-level override is merged last. After that the class drives one bundler through three
public operations, `build`, `start` and `test`. Each operation fires a lifecycle event before and
after its bundler action, and every event waits for all its listeners.

The model is pure and functional. Everything the class cannot see is an oracle parameter:
- `require` is a function from a path to a loaded export or a thrown message;
- a preset's effect on the instance is a function from export and state to a new state or a throw;
- the configuration builder's flattening is a function `toConfig`;
- a listener's promise is a function from listener and payload to "fulfils or not";
- the bundler's one-shot run and its watch-mode recompilations are a function and a sequence of results.

Each operation returns a `Completion`, which holds three things:
- the trace of what it did: events fired, bundler requests, output written;
- the memo (the cached flattened options) afterwards;
- whether its promise resolves.

The modules follow the class:

| file | module | models |
|---|---|---|
| `js.dfy` | `Js` | `undefined` as `Option`, JavaScript truthiness of strings and numbers, and the `/Cannot find module/` test |
| `presets.dfy` | `Presets` | the constructor: candidate paths, lookup, the preset loop and the package override |
| `diagnostics.dfy` | `Diagnostics` | `handleErrors` |
| `memo.dfy` | `Memo` | `getWebpackOptions` and its cache |
| `options.dfy` | `Options` | the parts of the flattened options the class reads, and the dev-server address |
| `lifecycle.dfy` | `Lifecycle` | `emitForAll`, `build`, `start` with its three modes, `_devServer`, `test` |

The model follows the code, including where its behaviour is surprising:
- A preset that returns a rejected promise does not abort construction. `forEach` ignores the
  returned value, so only a synchronous throw aborts. The model's `Invocation` therefore has only
  "returned" and "raised", and the state it returns is what the preset left when its call returned.
- The `start` event is fired only when the chosen mode resolved. When the fallback build rejects,
  `start` rejects without firing `start`.
- The node-target fallback calls `build()` with no arguments, so `prebuild` and `build` get
  `undefined` (`None`) rather than the caller's args.

## Model

| member | source | states |
|---|---|---|
| Js.Contains | packages/neutrino/src/neutrino.js:30 | The regular-expression test holds exactly when the pattern occurs at some position of the message. |
| Presets.Candidates | packages/neutrino/src/neutrino.js:18-22 | A preset reference has exactly three candidates, in this order: the reference under the working directory, the reference under its `node_modules` directory, and the bare reference. |
| Presets.Resolve | packages/neutrino/src/neutrino.js:24-38 | Candidates are tried in order. Every candidate before the deciding one failed with "not found". A used candidate really loaded that export. An aborting candidate threw a message that is not "not found". When nothing decides, every candidate was "not found". |
| Presets.ResolveReadsOnlyConsulted | packages/neutrino/src/neutrino.js:24-37 | Lookup stops at the first deciding candidate: two loaders that agree on the candidates consulted give the same resolution, so later candidates are never loaded. |
| Presets.ApplyFrom | packages/neutrino/src/neutrino.js:17-39 | The preset loop stops at the first failing preset or at the end of the list. Every applied preset lies before that stopping point. |
| Presets.ApplyFromFollowsResolution | packages/neutrino/src/neutrino.js:17-38 | Each applied record names a preset that resolved to the recorded candidate and export. Records are in strictly increasing list order, so no preset is applied twice. |
| Presets.ApplyFromSkipsOnlyMissing | packages/neutrino/src/neutrino.js:24-32 | A preset before the stopping point that was not applied found no candidate at all, so exhausting all candidates is a silent no-op. |
| Presets.ApplyFromChainsState | packages/neutrino/src/neutrino.js:17-39 | The applied exports were invoked once each, in list order, each on the state the previous one left. A non-"not found" load failure aborts with that candidate's message. A throwing preset aborts with its own message: its predecessors ran without raising, and it raised on the state they left. |
| Presets.Construct | packages/neutrino/src/neutrino.js:11-49 | The whole constructor. On success, the state is the chain of applied presets with the package override merged last, when one is present. On failure it names the failing preset and why, and only presets before it were applied, each following its resolution. After a failed lookup the state is the chain of the preceding presets, without the override. A throwing preset is named, together with the export that raised on the state its predecessors left, and it is not among the applied presets. |
| Diagnostics.HandleErrors | packages/neutrino/src/neutrino.js:51-70 | Failed exactly when there is a hard error or a stats error, and exactly when something is written to the error stream. A hard error writes its stack (or itself) and then its details when present. Otherwise the stats errors are written as they are. Stats are read only when there is no hard error. |
| Memo.GetOptions | packages/neutrino/src/neutrino.js:72-78 | A truthy cached value is returned unchanged, without flattening. Otherwise the current builder is flattened once and the result is cached. The builder is never touched. |
| Memo.CachedValueIsStale | packages/neutrino/src/neutrino.js:72-75 | Once a truthy value is cached, any later mix of builder changes and reads returns that value every time and never flattens again. |
| Memo.FlattenAtMostOnce | packages/neutrino/src/neutrino.js:72-78 | When flattening always yields an object, an instance flattens at most once over any history. Every read returns the flattening of the builder as it stood at the first read. |
| Options.ServerAddress | packages/neutrino/src/neutrino.js:142-144 | The protocol is https exactly when requested, http otherwise. A falsy host (missing or empty) becomes localhost. A falsy port (missing or 0) becomes 5000. The resulting host and port are never falsy. |
| Options.Quiet | packages/neutrino/src/neutrino.js:146 | Forcing `noInfo` on leaves the protocol, host, port and derived address unchanged. |
| Lifecycle.AllSettle | packages/neutrino/src/neutrino.js:81 | The aggregate of the listener promises fulfils exactly when each listener's promise does. |
| Lifecycle.EmitForAll | packages/neutrino/src/neutrino.js:80-82 | Firing a channel succeeds exactly when every registered listener fulfils for the payload. A channel with no listeners succeeds. |
| Lifecycle.RunBuild | packages/neutrino/src/neutrino.js:84-108 | `prebuild` is fired first. When it fulfils, the compiler runs next, on the flattened options, so `build` can only come after the compilation. The build resolves exactly when `prebuild` fulfils, the compilation is not classified failed, and `build` fulfils. At most one flattening happens. A rejected `prebuild` leaves the instance untouched. Otherwise the options that were compiled are the ones cached afterwards, so a later call works on them. |
| Lifecycle.AfterCompile | packages/neutrino/src/neutrino.js:91-105 | After the compiler's callback, a failed run fires nothing. A good run fires `build` with the caller's args. Neither requests more of the bundler. |
| Lifecycle.BuildCompilesOnce | packages/neutrino/src/neutrino.js:84-91 | The compiler is run exactly once, on the flattened options, when `prebuild` fulfilled. It is never run when `prebuild` rejected. |
| Lifecycle.BuildEmits | packages/neutrino/src/neutrino.js:84-107 | The events are `prebuild`, then `build` with the same args exactly when `prebuild` fulfilled and the compilation succeeded. |
| Lifecycle.WatchReports | packages/neutrino/src/neutrino.js:128-130 | The reports of a sequence of recompilations: one per failed recompilation and none for a good one. The error lines of every failed recompilation appear among the reports, and every report has error lines. |
| Lifecycle.WatchReportsOnlyFailures | packages/neutrino/src/neutrino.js:128-130 | Every report is the error output of some failed recompilation. |
| Lifecycle.ErrorOutputIsSilent | packages/neutrino/src/neutrino.js:128-130 | Error reports alone fire no event and request nothing of the bundler, so a recompilation never restarts or rejects anything. |
| Lifecycle.RunWatch | packages/neutrino/src/neutrino.js:125-133 | Watch mode watches the cached options once, with their watch settings or `{}`. After the watcher comes exactly the reports of the recompilations, so watch mode writes one report per failed recompilation and nothing else. It resolves whatever the recompilations report. It fires no event and does not flatten again. |
| Lifecycle.RunDevServer | packages/neutrino/src/neutrino.js:138-162 | The dev server is started once, on the cached options with `noInfo` forced on and at the derived address. It resolves and fires no event. Afterwards the cache holds exactly those served options: only `noInfo` changed, nothing was flattened again, and the builder is kept. |
| Lifecycle.RunStart | packages/neutrino/src/neutrino.js:110-136 | `prestart` is fired first. When it rejects, nothing else happens, the instance is untouched, and `start` rejects. Otherwise the flattened options stay cached, and only their `noInfo` is forced on when the development server ran. At most one flattening happens. |
| Lifecycle.StartMode | packages/neutrino/src/neutrino.js:114-133 | Running the chosen mode on the cached options does not flatten again and keeps the builder. Afterwards the same options are cached, and only the development-server mode changes them, by forcing `noInfo` on. |
| Lifecycle.StartWithDevServer | packages/neutrino/src/neutrino.js:116-118 | With dev-server options, the only bundler request is serving the quieted options at the derived address. No fallback warning is printed, the events are `prestart` then `start`, and the outcome depends on `start` alone. |
| Lifecycle.StartOnNodeTarget | packages/neutrino/src/neutrino.js:120-123 | Without dev-server options on a node target, the warning comes right after `prestart`. The compiler runs once when `prebuild` with `undefined` fulfils. `start` resolves exactly when that build and `start` both fulfil. |
| Lifecycle.StartOnNodeTargetEvents | packages/neutrino/src/neutrino.js:120-135 | The node-target fallback fires `prestart`, then `prebuild` with `undefined`, then `build` with `undefined` when the compilation succeeded, then `start` with the caller's args when the build resolved. |
| Lifecycle.FallbackTrace | packages/neutrino/src/neutrino.js:121-122 | The fallback is the warning followed by `build()`: the same bundler requests, events and outcome as a build with no args. |
| Lifecycle.StartWatching | packages/neutrino/src/neutrino.js:125-135 | Otherwise the only bundler request is watching the flattened options with their watch settings or `{}`. No warning is printed, the events are `prestart` then `start`, and compile failures never make `start` reject. |
| Lifecycle.RunTest | packages/neutrino/src/neutrino.js:164-168 | `test` never involves the bundler or the cache. It fires `pretest`, then `test` when `pretest` fulfilled, and resolves exactly when both fulfil. |
| Lifecycle.SessionFlattensAtMostOnce | packages/neutrino/src/neutrino.js:72-78 | However many `build`, `start` and `test` calls run on one instance, the builder is flattened at most once and never changed. Once options are cached, no call flattens again and they stay cached. Whatever is cached after the calls is the object the instance flattens to, changed at most in its `noInfo`. |

## Left out

- `path.join` is modelled as plain concatenation with `/`. Normalisation of `..`, `.`, duplicate slashes and absolute preset names is not modelled.
- The real module loader, file system, process working directory and the package file read are oracle parameters. The package override is given as present or absent. A missing file, a missing `config.neutrino` key and a failed read all count as absent.
- Presets.ApplyFrom: the state a preset leaves is the state when its call returns. An async preset runs only up to its first `await` inside the loop. Whatever it does after that, possibly after later presets, the override merge or the end of the constructor, is not modelled. Presets.ApplyFromChainsState and Presets.Construct describe only the synchronous part of each preset.
- Presets.Construct: the merge of the override is a total function. An exception thrown by `merge` is swallowed by the same `catch` in the source, which the model does not represent.
- The configuration builder (`webpack-chain`) and its `toConfig` are abstract: only `devServer`, `target` and `watchOptions` of the flattened options are modelled.
- Console output is represented only as trace entries (error lines, the build summary, the fallback warning). Colours, the `stats.toString` options and the `ora` spinner texts are not modelled.
- Promises are modelled by their outcome only. Listener concurrency and dispatch order inside `emitForAll` are not modelled, and neither is which rejection surfaces first. Each listener's outcome is a fixed function of the listener and the payload.
- A listener that throws synchronously is treated like one whose promise rejects.
- Lifecycle.Env: listeners have no effect on the configuration builder or the cache. In the source, presets register listeners as closures over the instance, and a `prebuild` or `prestart` listener runs before the first flattening, so it could change what is compiled, and any listener could call `getWebpackOptions`. For this reason Lifecycle.BuildCompilesOnce compiles the builder as it stood before the call, Lifecycle.RunTest leaves the memo unchanged, and Lifecycle.SessionFlattensAtMostOnce keeps the builder unchanged and the cached object changed only in its `noInfo`. All three hold only under this abstraction.
- `webpack(config)` throwing synchronously (invalid options) is not modelled. Compilation always calls back with a hard error or stats.
- Watch and dev-server modes resolve on `SIGINT`. The model treats the interrupt as the end of the run and fixes the recompilation results up to it as an input sequence. `watcher.close`, the `listen` callback and the `compile`/`done` plugin hooks of the dev server are not modelled.
- The dev server's network behaviour and its own use of `noInfo` are outside the class. Only the options and the address it is given are modelled.
- Concurrent invocation of operations on one instance is not modelled. A `Session` runs operations one after another.

=== FILE: diagnostics.dfy ===
/** Classifying a bundler run as failed or succeeded (`handleErrors`), shared by
    the one-shot build and every watch-mode recompilation. */
module Diagnostics {
  import opened Js

  /** An error the bundler hands back instead of stats. `rendering` is how the
      error object prints itself; an empty `stack` or `details` is absent. */
  datatype HardError = HardError(stack: string, rendering: string, details: string)

  /** A finished run: the error list of its structured form and its summary text. */
  datatype Stats = Stats(errors: seq<string>, summary: string)

  /** The verdict, the lines written to the error stream, and whether the stats
      were converted to their structured form. */
  datatype Classification = Classification(failed: bool, errorOutput: seq<string>, statsRead: bool)

  /** `err.stack || err`: the first line written for a hard error. */
  function Headline(e: HardError): string {
    if e.stack != "" then e.stack else e.rendering
  }

  /** The callback of a run always has a hard error or stats to look at. */
  function HandleErrors(err: Option<HardError>, stats: Option<Stats>): (r: Classification)
    requires err.Some? || stats.Some?
    ensures r.failed <==> err.Some? || |stats.value.errors| > 0
    ensures r.failed <==> |r.errorOutput| > 0
    ensures r.statsRead <==> err.None?
    ensures err.Some? ==> r.errorOutput[0] == Headline(err.value)
                          && (|r.errorOutput| == 2 <==> err.value.details != "")
                          && (err.value.details != "" ==> r.errorOutput[1] == err.value.details)
                          && |r.errorOutput| <= 2
    ensures err.None? ==> r.errorOutput == stats.value.errors
  {
    match err
    case Some(e) =>
      Classification(true, [Headline(e)] + (if e.details != "" then [e.details] else []), false)
    case None =>
      var errors := stats.value.errors;
      Classification(|errors| > 0, errors, true)
  }
}

=== FILE: js.dfy ===
/** The few pieces of JavaScript value semantics the orchestrator relies on:
    `undefined` versus a present value, truthiness of strings and numbers,
    and the test a metacharacter-free regular expression literal performs. */
module Js {

  /** A value that may be `undefined`. */
  datatype Option<+T> = None | Some(value: T) {

    /** `x || fallback` for an object-valued `x` (every object is truthy). */
    function GetOr(fallback: T): T {
      match this
      case Some(v) => v
      case None => fallback
    }
  }

  /** A string property is falsy when it is missing or empty. */
  predicate TruthyString(s: Option<string>) {
    s.Some? && s.value != ""
  }

  /** A number property is falsy when it is missing or zero. */
  predicate TruthyInt(n: Option<int>) {
    n.Some? && n.value != 0
  }

  /** `pattern` occurs in `s` starting at offset `i`. */
  ghost predicate OccursAt(s: string, pattern: string, i: int) {
    0 <= i && i + |pattern| <= |s| && s[i..i + |pattern|] == pattern
  }

  /** `/pattern/.test(s)` for a pattern without metacharacters: a substring test. */
  function Contains(s: string, pattern: string): (r: bool)
    ensures r <==> exists i :: OccursAt(s, pattern, i)
    decreases |s|
  {
    if |s| < |pattern| then
      false
    else if s[..|pattern|] == pattern then
      assert OccursAt(s, pattern, 0);
      true
    else
      var rest := Contains(s[1..], pattern);
      assert rest ==> exists i :: OccursAt(s, pattern, i) by {
        if rest {
          var j :| OccursAt(s[1..], pattern, j);
          assert s[1..][j..j + |pattern|] == s[j + 1..j + 1 + |pattern|];
          assert OccursAt(s, pattern, j + 1);
        }
      }
      assert (exists i :: OccursAt(s, pattern, i)) ==> rest by {
        if exists i :: OccursAt(s, pattern, i) {
          var i :| OccursAt(s, pattern, i);
          assert i != 0;
          assert s[1..][i - 1..i - 1 + |pattern|] == s[i..i + |pattern|];
          assert OccursAt(s[1..], pattern, i - 1);
        }
      }
      rest
  }
}

=== FILE: lifecycle.dfy ===
/** The public operations `build`, `start` and `test`: each fires a pre-event,
    performs at most one bundler action, and fires a post-event. Listener
    outcomes, the flattening, and the bundler's results are oracle inputs; an
    operation yields the trace of what it emitted and asked of the bundler,
    the instance's memo afterwards, and whether its promise resolves. */
module Lifecycle {
  import opened Js
  import opened Options
  import opened Diagnostics
  import MC = Memo

  /** The lifecycle channels. */
  datatype Event = Prebuild | Build | Prestart | Start | Pretest | Test

  /** What the bundler's completion callback receives. */
  datatype CompileResult = HardFailure(error: HardError) | Finished(stats: Stats)

  /** The one classification, reused by the one-shot build and by watch mode. */
  function Classify(c: CompileResult): Classification {
    match c
    case HardFailure(e) => HandleErrors(Some(e), None)
    case Finished(s) => HandleErrors(None, Some(s))
  }

  /** Everything outside the orchestrator: the flattening of a builder, the
      listeners registered per channel, whether a listener's promise fulfils for
      a payload (`None` is `undefined`), what a one-shot compilation yields for
      some options, and the results watch mode sees until it is interrupted. */
  datatype Env<!B, !L, !A> = Env(toConfig: B -> WebpackOptions,
                                    listeners: map<Event, seq<L>>,
                                    settles: (L, Option<A>) -> bool,
                                    compile: WebpackOptions -> CompileResult,
                                    rebuilds: seq<CompileResult>)

  /** `this.listeners(name)`: the registered listeners, none when never registered. */
  function Listeners<B, L, A>(env: Env<B, L, A>, e: Event): seq<L> {
    if e in env.listeners then env.listeners[e] else []
  }

  /** Every listener in `ls` fulfils for `payload`. */
  function AllSettle<L, A>(ls: seq<L>, settles: (L, Option<A>) -> bool, payload: Option<A>): (ok: bool)
    ensures ok <==> forall i :: 0 <= i < |ls| ==> settles(ls[i], payload)
    decreases |ls|
  {
    if ls == [] then true else settles(ls[0], payload) && AllSettle(ls[1..], settles, payload)
  }

  /** `emitForAll`: every listener of the channel is handed the payload, and the
      aggregate fulfils exactly when each of them does (none at all fulfils). */
  function EmitForAll<B, L, A>(env: Env<B, L, A>, e: Event, payload: Option<A>): (ok: bool)
    ensures ok <==> forall i :: 0 <= i < |Listeners(env, e)| ==> env.settles(Listeners(env, e)[i], payload)
    ensures Listeners(env, e) == [] ==> ok
  {
    AllSettle(Listeners(env, e), env.settles, payload)
  }

  /** What an operation did, in order. */
  datatype Action<A> =
    | Emit(event: Event, payload: Option<A>)            // emitForAll on a channel
    | Compile(config: WebpackOptions)                    // one-shot compiler run
    | ErrorOutput(lines: seq<string>)                    // classification output
    | Summary(text: string)                              // stats summary of a good build
    | FallbackWarning                                    // node target cannot watch
    | Watch(config: WebpackOptions, options: WatchOptions)
    | Serve(config: WebpackOptions, address: Address)    // development server started

  datatype Outcome = Resolved | Rejected

  datatype Completion<B, A> = Completion(trace: seq<Action<A>>, memo: MC.Memo<B, WebpackOptions>, outcome: Outcome)

  function Flatten<B>(m: MC.Memo<B, WebpackOptions>, toConfig: B -> WebpackOptions)
    : (MC.Memo<B, WebpackOptions>, WebpackOptions)
  {
    MC.GetOptions(m, toConfig, IsObject)
  }

  /** The options an operation on `m` works with. */
  function Flattened<B, L, A>(env: Env<B, L, A>, m: MC.Memo<B, WebpackOptions>): WebpackOptions {
    Flatten(m, env.toConfig).1
  }

  /** Whether a one-shot compilation of those options is classified failed. */
  predicate CompileFailed<B, L, A>(env: Env<B, L, A>, m: MC.Memo<B, WebpackOptions>) {
    Classify(env.compile(Flattened(env, m))).failed
  }

  /** The channel emissions of a trace, in order. */
  function Events<A>(t: seq<Action<A>>): seq<(Event, Option<A>)>
    decreases |t|
  {
    if t == [] then []
    else (if t[0].Emit? then [(t[0].event, t[0].payload)] else []) + Events(t[1..])
  }

  predicate IsBundlerAction<A>(a: Action<A>) {
    a.Compile? || a.Watch? || a.Serve?
  }

  /** The requests made of the bundler in a trace, in order. */
  function BundlerActions<A>(t: seq<Action<A>>): seq<Action<A>>
    decreases |t|
  {
    if t == [] then []
    else (if IsBundlerAction(t[0]) then [t[0]] else []) + BundlerActions(t[1..])
  }

  /** Both projections distribute over concatenation of traces. */
  lemma ProjectionsAppend<A>(a: seq<Action<A>>, b: seq<Action<A>>)
    ensures Events(a + b) == Events(a) + Events(b)
    ensures BundlerActions(a + b) == BundlerActions(a) + BundlerActions(b)
  {
    EventsAppend(a, b);
    BundlerActionsAppend(a, b);
  }

  lemma {:induction false} EventsAppend<A>(a: seq<Action<A>>, b: seq<Action<A>>)
    ensures Events(a + b) == Events(a) + Events(b)
    decreases |a|
  {
    if a == [] {
      assert a + b == b;
    } else {
      assert (a + b)[0] == a[0];
      assert (a + b)[1..] == a[1..] + b;
      EventsAppend(a[1..], b);
      var e := if a[0].Emit? then [(a[0].event, a[0].payload)] else [];
      assert Events(a + b) == e + (Events(a[1..]) + Events(b));
      assert Events(a) == e + Events(a[1..]);
    }
  }

  lemma {:induction false} BundlerActionsAppend<A>(a: seq<Action<A>>, b: seq<Action<A>>)
    ensures BundlerActions(a + b) == BundlerActions(a) + BundlerActions(b)
    decreases |a|
  {
    if a == [] {
      assert a + b == b;
    } else {
      assert (a + b)[0] == a[0];
      assert (a + b)[1..] == a[1..] + b;
      BundlerActionsAppend(a[1..], b);
      var c := if IsBundlerAction(a[0]) then [a[0]] else [];
      assert BundlerActions(a + b) == c + (BundlerActions(a[1..]) + BundlerActions(b));
      assert BundlerActions(a) == c + BundlerActions(a[1..]);
    }
  }

  lemma ProjectionsOne<A>(x: Action<A>)
    ensures Events([x]) == (if x.Emit? then [(x.event, x.payload)] else [])
    ensures BundlerActions([x]) == (if IsBundlerAction(x) then [x] else [])
  {
    assert [x][1..] == [];
  }

  lemma ProjectionsTwo<A>(x: Action<A>, y: Action<A>)
    ensures Events([x, y]) == Events([x]) + Events([y])
    ensures BundlerActions([x, y]) == BundlerActions([x]) + BundlerActions([y])
  {
    assert [x, y] == [x] + [y];
    ProjectionsAppend([x], [y]);
  }

  /** The cached object once `_devServer` has forced `noInfo` on in it; options
      without development-server settings are left as they are. */
  function Quieted(c: WebpackOptions): WebpackOptions {
    if c.devServer.Some? then c.(devServer := Some(Quiet(c.devServer.value))) else c
  }

  /** `c` is the object `base` itself, possibly after `_devServer` changed it. */
  predicate SameObject(base: WebpackOptions, c: WebpackOptions) {
    c == base || c == Quieted(base)
  }

  /** How the memo may change over one operation: the builder is untouched, at
      most one flattening happens, and none once a value is cached; whatever is
      cached afterwards is the one object the instance flattens to, changed at
      most in its `noInfo`. */
  ghost predicate MemoStep<B, L, A>(env: Env<B, L, A>, m: MC.Memo<B, WebpackOptions>, m': MC.Memo<B, WebpackOptions>) {
    && m'.builder == m.builder
    && m'.flattenCalls <= m.flattenCalls + 1
    && (m.cache.Some? ==> m'.cache.Some? && m'.flattenCalls == m.flattenCalls)
    && (m'.cache.Some? ==> SameObject(Flattened(env, m), m'.cache.value))
  }

  /** `build(args)`. */
  function RunBuild<B, L, A>(env: Env<B, L, A>, m: MC.Memo<B, WebpackOptions>, args: Option<A>)
    : (r: Completion<B, A>)
    // `prebuild` is fired first, before the compiler runs
    ensures |r.trace| > 0 && r.trace[0] == Emit(Prebuild, args)
    // the compiler runs right after `prebuild`, so `build` can only follow it
    ensures EmitForAll(env, Prebuild, args) ==> |r.trace| > 1 && r.trace[1] == Compile(Flattened(env, m))
    ensures r.outcome == Resolved <==>
              EmitForAll(env, Prebuild, args) && !CompileFailed(env, m) && EmitForAll(env, Build, args)
    ensures MemoStep(env, m, r.memo)
    // a rejected `prebuild` leaves the instance alone; otherwise what was compiled stays cached
    ensures !EmitForAll(env, Prebuild, args) ==> r.memo == m
    ensures EmitForAll(env, Prebuild, args) ==> r.memo.cache == Some(Flattened(env, m))
  {
    var head := [Emit(Prebuild, args)];
    if !EmitForAll(env, Prebuild, args) then
      Completion(head, m, Rejected)
    else
      var (m', config) := Flatten(m, env.toConfig);
      var verdict := Classify(env.compile(config));
      var emitted := !verdict.failed && EmitForAll(env, Build, args);
      Completion(head + [Compile(config)] + AfterCompile(env.compile(config), args), m',
                 if emitted then Resolved else Rejected)
  }

  /** What `build` does once the compiler called back: report the errors of a
      failed run, or print the summary of a good one and fire `build`. */
  function AfterCompile<A>(result: CompileResult, args: Option<A>): (t: seq<Action<A>>)
    ensures BundlerActions(t) == []
    ensures Events(t) == (if Classify(result).failed then [] else [(Build, args)])
  {
    var verdict := Classify(result);
    if verdict.failed then
      ProjectionsOne<A>(ErrorOutput(verdict.errorOutput));
      [ErrorOutput(verdict.errorOutput)]
    else
      ProjectionsOne<A>(Summary(result.stats.summary));
      ProjectionsOne(Emit(Build, args));
      ProjectionsTwo(Summary(result.stats.summary), Emit(Build, args));
      [Summary(result.stats.summary), Emit(Build, args)]
  }

  /** The bundler requests of `build(args)`: the compiler runs once, on the
      flattened options, exactly when `prebuild` fulfilled. */
  lemma BuildCompilesOnce<B, L, A>(env: Env<B, L, A>, m: MC.Memo<B, WebpackOptions>, args: Option<A>)
    ensures BundlerActions(RunBuild(env, m, args).trace) ==
              (if EmitForAll(env, Prebuild, args) then [Compile(Flattened(env, m))] else [])
  {
    ProjectionsOne(Emit(Prebuild, args));
    if EmitForAll(env, Prebuild, args) {
      var config := Flattened(env, m);
      var after := AfterCompile<A>(env.compile(config), args);
      ProjectionsOne<A>(Compile(config));
      ProjectionsAppend([Emit(Prebuild, args)], [Compile(config)]);
      ProjectionsAppend([Emit(Prebuild, args)] + [Compile(config)], after);
    }
  }

  /** The emissions of `build(args)`: `prebuild`, then `build` with the same args
      exactly when `prebuild` fulfilled and the compilation was not classified failed. */
  lemma BuildEmits<B, L, A>(env: Env<B, L, A>, m: MC.Memo<B, WebpackOptions>, args: Option<A>)
    ensures Events(RunBuild(env, m, args).trace) == [(Prebuild, args)] +
              (if EmitForAll(env, Prebuild, args) && !CompileFailed(env, m) then [(Build, args)] else [])
  {
    ProjectionsOne(Emit(Prebuild, args));
    if EmitForAll(env, Prebuild, args) {
      var config := Flattened(env, m);
      var after := AfterCompile<A>(env.compile(config), args);
      ProjectionsOne<A>(Compile(config));
      ProjectionsAppend([Emit(Prebuild, args)], [Compile(config)]);
      ProjectionsAppend([Emit(Prebuild, args)] + [Compile(config)], after);
    }
  }

  /** What watch mode writes for each recompilation: the error lines of every
      failed one, never a verdict; recompilations that succeed write nothing. */
  function WatchReports(rs: seq<CompileResult>): (reports: seq<seq<string>>)
    ensures forall i :: 0 <= i < |reports| ==> |reports[i]| > 0
    ensures |reports| == FailedCount(rs) <= |rs|
    ensures (forall j :: 0 <= j < |rs| ==> !Classify(rs[j]).failed) ==> reports == []
    ensures forall j :: 0 <= j < |rs| && Classify(rs[j]).failed ==> Classify(rs[j]).errorOutput in reports
    decreases |rs|
  {
    if rs == [] then []
    else
      var verdict := Classify(rs[0]);
      var rest := WatchReports(rs[1..]);
      assert forall j :: 0 < j < |rs| ==> rs[j] == rs[1..][j - 1];
      (if verdict.failed then [verdict.errorOutput] else []) + rest
  }

  /** `lines` is what some failed recompilation in `rs` wrote. */
  ghost predicate FailureOutput(rs: seq<CompileResult>, lines: seq<string>) {
    exists j :: 0 <= j < |rs| && Classify(rs[j]).failed && lines == Classify(rs[j]).errorOutput
  }

  /** Every report is the error output of some failed recompilation. */
  lemma {:induction false} WatchReportsOnlyFailures(rs: seq<CompileResult>)
    ensures forall i :: 0 <= i < |WatchReports(rs)| ==> FailureOutput(rs, WatchReports(rs)[i])
    decreases |rs|
  {
    if rs != [] {
      var tail := rs[1..];
      var here := if Classify(rs[0]).failed then [Classify(rs[0]).errorOutput] else [];
      var rest := WatchReports(tail);
      assert WatchReports(rs) == here + rest;
      WatchReportsOnlyFailures(tail);
      forall i | 0 <= i < |here + rest|
        ensures FailureOutput(rs, (here + rest)[i])
      {
        if i < |here| {
          assert (here + rest)[i] == Classify(rs[0]).errorOutput;
        } else {
          var k := i - |here|;
          assert (here + rest)[i] == rest[k];
          assert FailureOutput(tail, rest[k]);
          var j :| 0 <= j < |tail| && Classify(tail[j]).failed && rest[k] == Classify(tail[j]).errorOutput;
          assert tail[j] == rs[j + 1];
        }
      }
    }
  }

  /** How many of the recompilations are classified failed. */
  ghost function FailedCount(rs: seq<CompileResult>): nat
    decreases |rs|
  {
    if rs == [] then 0 else (if Classify(rs[0]).failed then 1 else 0) + FailedCount(rs[1..])
  }

  /** The reports as trace entries, in order. */
  function Reported<A>(reports: seq<seq<string>>): seq<Action<A>> {
    seq(|reports|, i requires 0 <= i < |reports| => ErrorOutput(reports[i]))
  }

  /** A trace of error output alone fires no event and asks nothing of the bundler. */
  lemma {:induction false} ErrorOutputIsSilent<A>(t: seq<Action<A>>)
    requires forall i :: 0 <= i < |t| ==> t[i].ErrorOutput?
    ensures Events(t) == [] && BundlerActions(t) == []
    decreases |t|
  {
    if t != [] {
      ErrorOutputIsSilent(t[1..]);
    }
  }

  /** Watch mode: starts the watcher with the configured settings (`{}` when
      none) and runs until interrupted; recompilation failures never reject. */
  function RunWatch<B, L, A>(env: Env<B, L, A>, m: MC.Memo<B, WebpackOptions>): (r: Completion<B, A>)
    requires m.cache.Some?
    ensures BundlerActions(r.trace) == [Watch(m.cache.value, m.cache.value.watchOptions.GetOr(NoWatchSettings))]
    // the watcher is started first; after it comes exactly what the recompilations report
    ensures |r.trace| > 0 && r.trace[0] == Watch(m.cache.value, m.cache.value.watchOptions.GetOr(NoWatchSettings))
    ensures r.trace[1..] == Reported(WatchReports(env.rebuilds))
    ensures Events(r.trace) == [] && FallbackWarning !in r.trace
    ensures r.outcome == Resolved
    ensures r.memo == m
  {
    var (m', config) := Flatten(m, env.toConfig);
    var head: seq<Action<A>> := [Watch(config, config.watchOptions.GetOr(NoWatchSettings))];
    var reports := Reported<A>(WatchReports(env.rebuilds));
    ErrorOutputIsSilent(reports);
    ProjectionsAppend(head, reports);
    assert FallbackWarning !in reports;
    Completion(head + reports, m', Resolved)
  }

  /** `_devServer`: serves the cached options with `noInfo` forced on (the
      cached object itself is changed) on the derived address, until interrupted. */
  function RunDevServer<B, L, A>(env: Env<B, L, A>, m: MC.Memo<B, WebpackOptions>): (r: Completion<B, A>)
    requires m.cache.Some? && m.cache.value.devServer.Some?
    ensures var ds := m.cache.value.devServer.value;
            BundlerActions(r.trace) == [Serve(m.cache.value.(devServer := Some(Quiet(ds))), ServerAddress(ds))]
    ensures Events(r.trace) == [] && FallbackWarning !in r.trace
    ensures r.outcome == Resolved
    ensures r.memo.cache.Some? && r.memo.cache.value.devServer.Some? && r.memo.cache.value.devServer.value.noInfo
    ensures r.memo.cache == Some(m.cache.value.(devServer := Some(Quiet(m.cache.value.devServer.value))))
    ensures r.memo.builder == m.builder && r.memo.flattenCalls == m.flattenCalls
  {
    var (m', config) := Flatten(m, env.toConfig);
    var ds := config.devServer.value;
    var address := ServerAddress(ds);
    var quieted := config.(devServer := Some(Quiet(ds)));
    var t: seq<Action<A>> := [Serve(quieted, address)];
    assert t[1..] == [];
    Completion(t, m'.(cache := Some(quieted)), Resolved)
  }

  /** The node-target fallback: a warning, then `build()` with no arguments. */
  function RunFallback<B, L, A>(env: Env<B, L, A>, m: MC.Memo<B, WebpackOptions>): (r: Completion<B, A>)
  {
    var b := RunBuild(env, m, None);
    Completion([FallbackWarning] + b.trace, b.memo, b.outcome)
  }

  /** `start(args)`: `prestart`, then one of three modes chosen on the flattened
      options, then `start` with the caller's args unless the mode rejected. */
  function RunStart<B, L, A>(env: Env<B, L, A>, m: MC.Memo<B, WebpackOptions>, args: Option<A>)
    : (r: Completion<B, A>)
    ensures |r.trace| > 0 && r.trace[0] == Emit(Prestart, args)
    ensures !EmitForAll(env, Prestart, args) ==> r.trace == [Emit(Prestart, args)] && r.outcome == Rejected
    ensures MemoStep(env, m, r.memo)
    // a rejected `prestart` leaves the instance alone; otherwise the flattened
    // options stay cached, with `noInfo` forced on when the dev server ran
    ensures !EmitForAll(env, Prestart, args) ==> r.memo == m
    ensures EmitForAll(env, Prestart, args) ==> r.memo.cache == Some(Quieted(Flattened(env, m)))
  {
    if !EmitForAll(env, Prestart, args) then
      Completion([Emit(Prestart, args)], m, Rejected)
    else
      var (m', config) := Flatten(m, env.toConfig);
      AfterMode(env, args, StartMode(env, m', config))
  }

  /** The mode `start` runs in: the development server when its options are
      present, else a one-shot build for a node target, else watch mode. */
  function StartMode<B, L, A>(env: Env<B, L, A>, m: MC.Memo<B, WebpackOptions>, config: WebpackOptions)
    : (r: Completion<B, A>)
    requires m.cache == Some(config)
    ensures MemoStep(env, m, r.memo)
    ensures r.memo.cache == Some(Quieted(config))
  {
    if config.devServer.Some? then RunDevServer(env, m)
    else if config.target == Some("node") then RunFallback(env, m)
    else RunWatch(env, m)
  }

  /** Once `prestart` fulfilled and the mode finished: `start` is fired with the
      caller's args unless the mode rejected. */
  function AfterMode<B, L, A>(env: Env<B, L, A>, args: Option<A>, mode: Completion<B, A>): (r: Completion<B, A>)
    ensures r.trace ==
              [Emit(Prestart, args)] + mode.trace + (if mode.outcome == Resolved then [Emit(Start, args)] else [])
    ensures Events(r.trace) ==
              [(Prestart, args)] + Events(mode.trace) + (if mode.outcome == Resolved then [(Start, args)] else [])
    ensures BundlerActions(r.trace) == BundlerActions(mode.trace)
    ensures r.outcome == Resolved <==> mode.outcome == Resolved && EmitForAll(env, Start, args)
    ensures r.memo == mode.memo
  {
    var tail := if mode.outcome == Resolved then [Emit(Start, args)] else [];
    StartProjections(args, mode.trace, tail);
    var emitted := mode.outcome == Resolved && EmitForAll(env, Start, args);
    Completion([Emit(Prestart, args)] + mode.trace + tail, mode.memo, if emitted then Resolved else Rejected)
  }

  /** The projections of `start`'s trace split into its three parts. */
  lemma StartProjections<A>(args: Option<A>, mid: seq<Action<A>>, tail: seq<Action<A>>)
    requires tail == [] || tail == [Emit(Start, args)]
    ensures Events([Emit(Prestart, args)] + mid + tail) ==
              [(Prestart, args)] + Events(mid) + (if tail == [] then [] else [(Start, args)])
    ensures BundlerActions([Emit(Prestart, args)] + mid + tail) == BundlerActions(mid)
  {
    ProjectionsOne(Emit(Prestart, args));
    ProjectionsOne(Emit(Start, args));
    ProjectionsAppend([Emit(Prestart, args)], mid);
    ProjectionsAppend([Emit(Prestart, args)] + mid, tail);
  }

  /** With development-server options the server is started on the derived
      address and the node-target check is never reached. */
  lemma StartWithDevServer<B, L, A>(env: Env<B, L, A>, m: MC.Memo<B, WebpackOptions>, args: Option<A>)
    requires EmitForAll(env, Prestart, args) && Flattened(env, m).devServer.Some?
    ensures var cfg := Flattened(env, m);
            var ds := cfg.devServer.value;
            var r := RunStart(env, m, args);
            && BundlerActions(r.trace) == [Serve(cfg.(devServer := Some(Quiet(ds))), ServerAddress(ds))]
            && FallbackWarning !in r.trace
            && Events(r.trace) == [(Prestart, args), (Start, args)]
            && (r.outcome == Resolved <==> EmitForAll(env, Start, args))
  {
    var (m', cfg) := Flatten(m, env.toConfig);
    StartRunsMode(env, m, args);
    var mode := RunDevServer<B, L, A>(env, m');
    assert StartMode(env, m', cfg) == mode;
  }

  /** Past `prestart`, `start` is its mode followed by the `start` event. */
  lemma StartRunsMode<B, L, A>(env: Env<B, L, A>, m: MC.Memo<B, WebpackOptions>, args: Option<A>)
    requires EmitForAll(env, Prestart, args)
    ensures var (m', cfg) := Flatten(m, env.toConfig);
            && m'.cache == Some(cfg) && cfg == Flattened(env, m) && Flattened(env, m') == cfg
            && CompileFailed(env, m') == CompileFailed(env, m)
            && RunStart(env, m, args) == AfterMode(env, args, StartMode(env, m', cfg))
  {
  }

  /** A node target cannot be watched: after a warning, one build runs with
      `undefined` for its args, on the options already flattened. */
  lemma StartOnNodeTarget<B, L, A>(env: Env<B, L, A>, m: MC.Memo<B, WebpackOptions>, args: Option<A>)
    requires EmitForAll(env, Prestart, args)
    requires Flattened(env, m).devServer.None? && Flattened(env, m).target == Some("node")
    ensures var r := RunStart(env, m, args);
            && r.trace[1] == FallbackWarning
            && BundlerActions(r.trace) == (if EmitForAll(env, Prebuild, None) then [Compile(Flattened(env, m))] else [])
            && (r.outcome == Resolved <==>
                  EmitForAll(env, Prebuild, None) && !CompileFailed(env, m) && EmitForAll(env, Build, None)
                  && EmitForAll(env, Start, args))
  {
    var (m', cfg) := Flatten(m, env.toConfig);
    StartRunsMode(env, m, args);
    var f := RunFallback<B, L, A>(env, m');
    assert StartMode(env, m', cfg) == f;
    FallbackTrace(env, m');
    assert AfterMode(env, args, f).trace[1] == f.trace[0];
  }

  /** The events of a node-target start: `prestart`, the fallback build's events
      with no args, then `start` if the build fulfilled. */
  lemma StartOnNodeTargetEvents<B, L, A>(env: Env<B, L, A>, m: MC.Memo<B, WebpackOptions>, args: Option<A>)
    requires EmitForAll(env, Prestart, args)
    requires Flattened(env, m).devServer.None? && Flattened(env, m).target == Some("node")
    ensures var built := EmitForAll(env, Prebuild, None) && !CompileFailed(env, m);
            var ok := built && EmitForAll(env, Build, None);
            Events(RunStart(env, m, args).trace) ==
              [(Prestart, args), (Prebuild, None)] + (if built then [(Build, None)] else [])
              + (if ok then [(Start, args)] else [])
  {
    var (m', cfg) := Flatten(m, env.toConfig);
    StartRunsMode(env, m, args);
    var f := RunFallback<B, L, A>(env, m');
    assert StartMode(env, m', cfg) == f;
    FallbackTrace(env, m');
    var built := EmitForAll(env, Prebuild, None) && !CompileFailed(env, m);
    var ok := built && EmitForAll(env, Build, None);
    assert f.outcome == Resolved <==> ok;
    FallbackEventsAfterMode(env, args, f, built, ok);
  }

  /** The event arithmetic behind the node-target case, for any fallback run. */
  lemma FallbackEventsAfterMode<B, L, A>(env: Env<B, L, A>, args: Option<A>, f: Completion<B, A>, built: bool, ok: bool)
    requires Events(f.trace) == [(Prebuild, None)] + (if built then [(Build, None)] else [])
    requires f.outcome == Resolved <==> ok
    ensures Events(AfterMode(env, args, f).trace) ==
              [(Prestart, args), (Prebuild, None)] + (if built then [(Build, None)] else [])
              + (if ok then [(Start, args)] else [])
  {
    var x: seq<(Event, Option<A>)> := if built then [(Build, None)] else [];
    var y: seq<(Event, Option<A>)> := if ok then [(Start, args)] else [];
    assert Events(AfterMode(env, args, f).trace) == [(Prestart, args)] + ([(Prebuild, None)] + x) + y;
    assert [(Prestart, args)] + ([(Prebuild, None)] + x) + y == [(Prestart, args), (Prebuild, None)] + x + y;
  }

  /** The projections of the fallback: those of `build()` behind the warning. */
  lemma FallbackTrace<B, L, A>(env: Env<B, L, A>, m: MC.Memo<B, WebpackOptions>)
    ensures var f := RunFallback<B, L, A>(env, m);
            && f.trace[0] == FallbackWarning
            && BundlerActions(f.trace) == (if EmitForAll(env, Prebuild, None) then [Compile(Flattened(env, m))] else [])
            && Events(f.trace) == [(Prebuild, None)] +
                 (if EmitForAll(env, Prebuild, None) && !CompileFailed(env, m) then [(Build, None)] else [])
            && (f.outcome == Resolved <==> RunBuild<B, L, A>(env, m, None).outcome == Resolved)
  {
    var b := RunBuild<B, L, A>(env, m, None);
    BuildCompilesOnce(env, m, None);
    BuildEmits(env, m, None);
    ProjectionsOne<A>(FallbackWarning);
    ProjectionsAppend([FallbackWarning], b.trace);
  }

  /** Otherwise the bundler watches; recompilation failures never reject, so the
      outcome depends on the listeners alone. */
  lemma StartWatching<B, L, A>(env: Env<B, L, A>, m: MC.Memo<B, WebpackOptions>, args: Option<A>)
    requires EmitForAll(env, Prestart, args)
    requires Flattened(env, m).devServer.None? && Flattened(env, m).target != Some("node")
    ensures var cfg := Flattened(env, m);
            var r := RunStart(env, m, args);
            && BundlerActions(r.trace) == [Watch(cfg, cfg.watchOptions.GetOr(NoWatchSettings))]
            && FallbackWarning !in r.trace
            && Events(r.trace) == [(Prestart, args), (Start, args)]
            && (r.outcome == Resolved <==> EmitForAll(env, Start, args))
  {
    var (m', cfg) := Flatten(m, env.toConfig);
    StartRunsMode(env, m, args);
    var mode := RunWatch<B, L, A>(env, m');
    assert StartMode(env, m', cfg) == mode;
  }

  /** `test(args)`: `pretest` then `test`, both with the caller's args; the
      bundler is never involved. */
  function RunTest<B, L, A>(env: Env<B, L, A>, m: MC.Memo<B, WebpackOptions>, args: Option<A>): (r: Completion<B, A>)
    ensures BundlerActions(r.trace) == []
    ensures Events(r.trace) == [(Pretest, args)] + (if EmitForAll(env, Pretest, args) then [(Test, args)] else [])
    ensures r.outcome == Resolved <==> EmitForAll(env, Pretest, args) && EmitForAll(env, Test, args)
    ensures r.memo == m
  {
    ProjectionsOne(Emit(Pretest, args));
    if !EmitForAll(env, Pretest, args) then
      Completion([Emit(Pretest, args)], m, Rejected)
    else
      var t := [Emit(Pretest, args), Emit(Test, args)];
      ProjectionsOne(Emit(Pretest, args));
      ProjectionsOne(Emit(Test, args));
      ProjectionsTwo(Emit(Pretest, args), Emit(Test, args));
      Completion(t, m, if EmitForAll(env, Test, args) then Resolved else Rejected)
  }

  /** A caller's use of one instance: operations invoked one after another. */
  datatype Call<A> = CallBuild(args: Option<A>) | CallStart(args: Option<A>) | CallTest(args: Option<A>)

  function RunCall<B, L, A>(env: Env<B, L, A>, m: MC.Memo<B, WebpackOptions>, c: Call<A>): Completion<B, A> {
    match c
    case CallBuild(args) => RunBuild(env, m, args)
    case CallStart(args) => RunStart(env, m, args)
    case CallTest(args) => RunTest(env, m, args)
  }

  /** The memo after running `calls` in order. */
  function Session<B, L, A>(env: Env<B, L, A>, m: MC.Memo<B, WebpackOptions>, calls: seq<Call<A>>)
    : MC.Memo<B, WebpackOptions>
    decreases |calls|
  {
    if calls == [] then m else Session(env, RunCall(env, m, calls[0]).memo, calls[1..])
  }

  /** However many operations a caller runs on one instance, the builder is
      flattened at most once over its whole life, and every call works on the
      one object it flattens to, changed at most in its `noInfo`. */
  lemma {:induction false} SessionFlattensAtMostOnce<B, L, A>(env: Env<B, L, A>, m: MC.Memo<B, WebpackOptions>,
                                                              calls: seq<Call<A>>)
    ensures Session(env, m, calls).builder == m.builder
    ensures Session(env, m, calls).flattenCalls <= m.flattenCalls + 1
    ensures m.cache.Some? ==> Session(env, m, calls).flattenCalls == m.flattenCalls
    ensures m.cache.Some? ==> Session(env, m, calls).cache.Some?
    ensures Session(env, m, calls).cache.Some? ==> SameObject(Flattened(env, m), Session(env, m, calls).cache.value)
    decreases |calls|
  {
    if calls != [] {
      var m' := RunCall(env, m, calls[0]).memo;
      assert MemoStep(env, m, m');
      SessionFlattensAtMostOnce(env, m', calls[1..]);
    }
  }
}

=== FILE: memo.dfy ===
/** The one memoisation in the orchestrator (`getWebpackOptions`): the
    configuration builder is flattened on first demand and the flattened value is
    handed out from then on, even after the builder changes. The flattening
    itself (`toConfig`) is an oracle over an abstract builder state. */
module Memo {
  import opened Js

  /** The builder, the cached flattened value, and how often `toConfig` ran. */
  datatype Memo<B, C> = Memo(builder: B, cache: Option<C>, flattenCalls: nat)

  /** The cache is used only when it holds a truthy value. */
  predicate Cached<B, C>(m: Memo<B, C>, truthy: C -> bool) {
    m.cache.Some? && truthy(m.cache.value)
  }

  /** `getWebpackOptions`: the cached value when there is a truthy one, otherwise
      a new flattening of the current builder, which is then cached. */
  function GetOptions<B, C>(m: Memo<B, C>, toConfig: B -> C, truthy: C -> bool): (r: (Memo<B, C>, C))
    ensures r.0.builder == m.builder
    ensures Cached(m, truthy) ==> r.1 == m.cache.value && r.0 == m
    ensures !Cached(m, truthy) ==> r.1 == toConfig(m.builder) && r.0.flattenCalls == m.flattenCalls + 1
    ensures r.0.cache == Some(r.1)
    ensures truthy(r.1) ==> Cached(r.0, truthy)
  {
    if Cached(m, truthy) then
      (m, m.cache.value)
    else
      var c := toConfig(m.builder);
      (m.(cache := Some(c), flattenCalls := m.flattenCalls + 1), c)
  }

  /** What can happen to an instance after construction: a preset or caller
      changes the builder, or someone asks for the flattened options. */
  datatype Op<B> = SetBuilder(builder: B) | Read

  /** Runs `ops` in order, collecting the value every `Read` returned. */
  function RunOps<B, C>(m: Memo<B, C>, ops: seq<Op<B>>, toConfig: B -> C, truthy: C -> bool): (r: (Memo<B, C>, seq<C>))
    decreases |ops|
  {
    if ops == [] then
      (m, [])
    else
      var m' := match ops[0]
        case SetBuilder(b) => m.(builder := b)
        case Read => GetOptions(m, toConfig, truthy).0;
      var here := if ops[0].Read? then [GetOptions(m, toConfig, truthy).1] else [];
      var rest := RunOps(m', ops[1..], toConfig, truthy);
      (rest.0, here + rest.1)
  }

  /** The builder current when the first `Read` in `ops` happens. */
  function BuilderAtFirstRead<B>(b: B, ops: seq<Op<B>>): B
    decreases |ops|
  {
    if ops == [] || ops[0].Read? then b
    else BuilderAtFirstRead(ops[0].builder, ops[1..])
  }

  /** Once a truthy value is cached, every later read returns exactly it, no
      flattening happens any more, and builder changes are not seen. */
  lemma {:induction false} CachedValueIsStale<B, C>(m: Memo<B, C>, ops: seq<Op<B>>, toConfig: B -> C,
                                                    truthy: C -> bool)
    requires Cached(m, truthy)
    ensures var r := RunOps(m, ops, toConfig, truthy);
            && r.0.cache == m.cache
            && r.0.flattenCalls == m.flattenCalls
            && forall i :: 0 <= i < |r.1| ==> r.1[i] == m.cache.value
    decreases |ops|
  {
    if ops != [] {
      var m' := if ops[0].SetBuilder? then m.(builder := ops[0].builder) else m;
      assert Cached(m', truthy);
      CachedValueIsStale(m', ops[1..], toConfig, truthy);
    }
  }

  /** With a flattening that always yields an object (so always truthy),
      `toConfig` runs at most once over any history of an instance that has
      nothing cached yet, and every read returns the flattening of the builder
      as it stood at the first read. */
  lemma {:induction false} FlattenAtMostOnce<B, C>(m: Memo<B, C>, ops: seq<Op<B>>, toConfig: B -> C,
                                                   truthy: C -> bool)
    requires m.cache.None?
    requires forall b :: truthy(toConfig(b))
    ensures var r := RunOps(m, ops, toConfig, truthy);
            && r.0.flattenCalls <= m.flattenCalls + 1
            && forall i :: 0 <= i < |r.1| ==> r.1[i] == toConfig(BuilderAtFirstRead(m.builder, ops))
    decreases |ops|
  {
    if ops != [] {
      match ops[0]
      case SetBuilder(b) =>
        FlattenAtMostOnce(m.(builder := b), ops[1..], toConfig, truthy);
      case Read =>
        var m' := GetOptions(m, toConfig, truthy).0;
        CachedValueIsStale(m', ops[1..], toConfig, truthy);
    }
  }
}

=== FILE: options.dfy ===
/** The parts of the flattened bundler options the orchestrator looks at, and
    the address the development server is bound to. */
module Options {
  import opened Js

  /** Development-server settings; `noInfo` silences the bundler's own logging. */
  datatype DevServerOptions = DevServerOptions(https: bool, host: Option<string>, port: Option<int>, noInfo: bool)

  /** Watch-mode settings, passed through to the bundler untouched. */
  datatype WatchOptions = WatchOptions(settings: map<string, string>)

  /** `{}`: the watch settings used when none are configured. */
  const NoWatchSettings := WatchOptions(map[])

  /** The flattened options. */
  datatype WebpackOptions = WebpackOptions(devServer: Option<DevServerOptions>, target: Option<string>,
                                           watchOptions: Option<WatchOptions>)

  /** The flattened options are an object, and every object is truthy. */
  predicate IsObject(c: WebpackOptions) {
    true
  }

  /** Where the development server listens. */
  datatype Address = Address(protocol: string, host: string, port: int)

  const DefaultHost := "localhost"
  const DefaultPort := 5000

  /** The protocol is `https` exactly when asked for, `http` otherwise; a falsy
      host or port (missing, empty, zero) falls back to the default. */
  function ServerAddress(ds: DevServerOptions): (a: Address)
    ensures a.protocol == "https" <==> ds.https
    ensures a.protocol == "http" <==> !ds.https
    ensures a.host == (if TruthyString(ds.host) then ds.host.value else DefaultHost)
    ensures a.port == (if TruthyInt(ds.port) then ds.port.value else DefaultPort)
    ensures a.host != "" && a.port != 0
  {
    Address(if ds.https then "https" else "http",
            if TruthyString(ds.host) then ds.host.value else DefaultHost,
            if TruthyInt(ds.port) then ds.port.value else DefaultPort)
  }

  /** The settings with `noInfo` forced on, as handed to the development server. */
  function Quiet(ds: DevServerOptions): (r: DevServerOptions)
    ensures r.noInfo
    ensures ServerAddress(r) == ServerAddress(ds)
    ensures r.https == ds.https && r.host == ds.host && r.port == ds.port
  {
    ds.(noInfo := true)
  }
}

=== FILE: presets.dfy ===
/** The orchestrator's constructor: every preset reference is looked up in three
    places, the first module that loads is invoked with the instance, and the
    project's own override is merged last. `require` and the presets themselves
    are oracles. */
module Presets {
  import opened Js

  /** Joins a directory and a name (`path.join` without normalisation). */
  function JoinPath(dir: string, name: string): string {
    dir + "/" + name
  }

  /** The places a preset reference is looked up, in priority order:
      relative to the working directory, inside its `node_modules`, and bare. */
  function Candidates(cwd: string, preset: string): (r: seq<string>)
    ensures |r| == 3
    ensures r[0] == cwd + "/" + preset
    ensures r[1] == cwd + "/node_modules/" + preset
    ensures r[2] == preset
  {
    [JoinPath(cwd, preset), JoinPath(JoinPath(cwd, "node_modules"), preset), preset]
  }

  /** What `require(path)` does: yields the module's export or throws. */
  datatype Load<F> = Module(fn: F) | Threw(message: string)

  /** The message fragment that marks a failed lookup as "not found". */
  const NotFoundPattern := "Cannot find module"

  predicate IsNotFound<F>(l: Load<F>) {
    l.Threw? && Contains(l.message, NotFoundPattern)
  }

  /** How one preset reference resolved: the candidate used, the candidate whose
      load failed for another reason, or none found at all. */
  datatype Resolution<F> = Use(index: nat, fn: F) | Abort(index: nat, message: string) | Skip

  /** How many candidates a resolution loaded, counting the deciding one. */
  function Consulted<F>(paths: seq<string>, r: Resolution<F>): nat {
    match r
    case Skip => |paths|
    case Use(i, _) => i + 1
    case Abort(i, _) => i + 1
  }

  /** Tries `paths[from..]` in order: a "not found" failure moves on, anything
      else decides. The result is the first candidate that is not "not found". */
  function Resolve<F>(paths: seq<string>, loader: string -> Load<F>, from: nat): (r: Resolution<F>)
    requires from <= |paths|
    ensures r.Use? ==> from <= r.index < |paths| && loader(paths[r.index]) == Module(r.fn)
    ensures r.Abort? ==> from <= r.index < |paths| && loader(paths[r.index]) == Threw(r.message)
                         && !Contains(r.message, NotFoundPattern)
    ensures from <= Consulted(paths, r) <= |paths|
    ensures forall j :: from <= j < Consulted(paths, r) - (if r.Skip? then 0 else 1) ==>
              IsNotFound(loader(paths[j]))
    decreases |paths| - from
  {
    if from == |paths| then
      Skip
    else
      match loader(paths[from])
      case Module(f) => Use(from, f)
      case Threw(m) =>
        if Contains(m, NotFoundPattern) then Resolve(paths, loader, from + 1) else Abort(from, m)
  }

  /** Resolution only depends on the candidates it consulted: a later candidate
      is never loaded once an earlier one has decided. */
  lemma {:induction false} ResolveReadsOnlyConsulted<F>(paths: seq<string>, l1: string -> Load<F>,
                                                        l2: string -> Load<F>, from: nat)
    requires from <= |paths|
    requires forall j :: from <= j < Consulted(paths, Resolve(paths, l1, from)) ==> l1(paths[j]) == l2(paths[j])
    ensures Resolve(paths, l2, from) == Resolve(paths, l1, from)
    decreases |paths| - from
  {
    if from < |paths| {
      assert l1(paths[from]) == l2(paths[from]);
      match l1(paths[from])
      case Module(_) =>
      case Threw(m) =>
        if Contains(m, NotFoundPattern) {
          ResolveReadsOnlyConsulted(paths, l1, l2, from + 1);
        }
    }
  }

  function ResolvePreset<F>(cwd: string, preset: string, loader: string -> Load<F>): Resolution<F> {
    Resolve(Candidates(cwd, preset), loader, 0)
  }

  /** The outcome of invoking a preset (or merging the override) on the instance. */
  datatype Invocation<S> = Returned(state: S) | Raised(message: string)

  /** A preset whose export was invoked and returned normally: its position in
      the list, its reference, which of its candidates was loaded, and the export. */
  datatype Applied<F> = Applied(position: nat, preset: string, candidate: nat, fn: F)

  /** Why construction aborted, and at which preset. */
  datatype Failure = LoadFailed(position: nat, candidate: nat, message: string)
                   | PresetThrew(position: nat, message: string)

  /** The presets applied, the instance state reached, and the abort reason if any. */
  datatype Construction<S, F> = Construction(applied: seq<Applied<F>>, state: S, failure: Option<Failure>)

  /** Invoking `exports` one after the other, each on the state the previous left. */
  function Chain<S, F>(invoke: (F, S) -> Invocation<S>, s: S, exports: seq<F>): Invocation<S>
    decreases |exports|
  {
    if exports == [] then
      Returned(s)
    else
      match invoke(exports[0], s)
      case Raised(m) => Raised(m)
      case Returned(s') => Chain(invoke, s', exports[1..])
  }

  function Exports<F>(applied: seq<Applied<F>>): (r: seq<F>)
    ensures |r| == |applied|
    ensures forall i :: 0 <= i < |applied| ==> r[i] == applied[i].fn
  {
    if applied == [] then [] else [applied[0].fn] + Exports(applied[1..])
  }

  /** `a` records that preset `presets[a.position]` resolved to its candidate `a.candidate`. */
  ghost predicate Describes<F>(a: Applied<F>, presets: seq<string>, resolve: string -> Resolution<F>) {
    && a.position < |presets|
    && a.preset == presets[a.position]
    && resolve(a.preset) == Use(a.candidate, a.fn)
  }

  ghost predicate AppliedAt<F>(applied: seq<Applied<F>>, p: nat) {
    exists i :: 0 <= i < |applied| && applied[i].position == p
  }

  /** Every record names a preset that resolved to the candidate recorded, and
      the records follow list order, so no preset appears twice. */
  ghost predicate FollowsResolution<F>(applied: seq<Applied<F>>, presets: seq<string>,
                                       resolve: string -> Resolution<F>) {
    && (forall i :: 0 <= i < |applied| ==> Describes(applied[i], presets, resolve))
    && (forall i, j :: 0 <= i < j < |applied| ==> applied[i].position < applied[j].position)
  }

  /** Every preset in `presets[k..stop]` that is not recorded found no candidate. */
  ghost predicate SkippedOnlyMissing<F>(applied: seq<Applied<F>>, presets: seq<string>, k: nat, stop: nat,
                                        resolve: string -> Resolution<F>)
    requires stop <= |presets|
  {
    forall p: nat :: k <= p < stop && !AppliedAt(applied, p) ==> resolve(presets[p]).Skip?
  }

  /** The position construction stopped at: the failing preset, or the end. */
  function StopPosition(presets: seq<string>, failure: Option<Failure>): nat {
    match failure
    case None => |presets|
    case Some(f) => f.position
  }

  /** The `presets.forEach` loop from position `k` on. It stops at the first
      preset whose lookup or invocation throws; nothing after it is touched. */
  function ApplyFrom<S, F>(presets: seq<string>, k: nat, resolve: string -> Resolution<F>,
                               invoke: (F, S) -> Invocation<S>, s: S): (r: Construction<S, F>)
    requires k <= |presets|
    ensures k <= StopPosition(presets, r.failure) <= |presets|
    ensures r.failure.Some? ==> r.failure.value.position < |presets|
    ensures forall i :: 0 <= i < |r.applied| ==>
              k <= r.applied[i].position < StopPosition(presets, r.failure)
    decreases |presets| - k
  {
    if k == |presets| then
      Construction([], s, None)
    else
      var preset := presets[k];
      match resolve(preset)
      case Skip =>
        ApplyFrom(presets, k + 1, resolve, invoke, s)
      case Abort(i, m) =>
        Construction([], s, Some(LoadFailed(k, i, m)))
      case Use(i, f) =>
        match invoke(f, s)
        case Raised(m) =>
          Construction([], s, Some(PresetThrew(k, m)))
        case Returned(s') =>
          var rest := ApplyFrom(presets, k + 1, resolve, invoke, s');
          Construction([Applied(k, preset, i, f)] + rest.applied, rest.state, rest.failure)
  }

  /** Every preset recorded as applied resolved to the candidate recorded, and
      the records follow list order, so no preset is invoked twice. */
  lemma {:induction false} ApplyFromFollowsResolution<S, F>(presets: seq<string>, k: nat,
                                                            resolve: string -> Resolution<F>,
                                                            invoke: (F, S) -> Invocation<S>, s: S)
    requires k <= |presets|
    ensures FollowsResolution(ApplyFrom(presets, k, resolve, invoke, s).applied, presets, resolve)
    decreases |presets| - k
  {
    if k < |presets| {
      var r := ApplyFrom(presets, k, resolve, invoke, s);
      match resolve(presets[k])
      case Skip =>
        assert r == ApplyFrom(presets, k + 1, resolve, invoke, s);
        ApplyFromFollowsResolution(presets, k + 1, resolve, invoke, s);
      case Abort(_, _) =>
      case Use(i, f) =>
        match invoke(f, s)
        case Raised(_) =>
        case Returned(s') =>
          var rest := ApplyFrom(presets, k + 1, resolve, invoke, s');
          var a := Applied(k, presets[k], i, f);
          assert r.applied == [a] + rest.applied;
          ApplyFromFollowsResolution(presets, k + 1, resolve, invoke, s');
          FollowsResolutionCons(a, rest.applied, presets, resolve);
    }
  }

  /** A record placed before records of later positions keeps them in order. */
  lemma FollowsResolutionCons<F>(a: Applied<F>, rest: seq<Applied<F>>, presets: seq<string>,
                                 resolve: string -> Resolution<F>)
    requires Describes(a, presets, resolve) && FollowsResolution(rest, presets, resolve)
    requires forall j :: 0 <= j < |rest| ==> a.position < rest[j].position
    ensures FollowsResolution([a] + rest, presets, resolve)
  {
    var all := [a] + rest;
    forall i | 0 <= i < |all|
      ensures Describes(all[i], presets, resolve)
    {
      if i > 0 { assert all[i] == rest[i - 1]; }
    }
    forall i, j | 0 <= i < j < |all|
      ensures all[i].position < all[j].position
    {
      assert all[j] == rest[j - 1];
      if i > 0 { assert all[i] == rest[i - 1]; }
    }
  }

  /** A preset before the stopping point that was not applied found no
      candidate at all: exhausting the candidates is a silent no-op. */
  lemma {:induction false} ApplyFromSkipsOnlyMissing<S, F>(presets: seq<string>, k: nat,
                                                           resolve: string -> Resolution<F>,
                                                           invoke: (F, S) -> Invocation<S>, s: S)
    requires k <= |presets|
    ensures var r := ApplyFrom(presets, k, resolve, invoke, s);
            SkippedOnlyMissing(r.applied, presets, k, StopPosition(presets, r.failure), resolve)
    decreases |presets| - k
  {
    if k < |presets| {
      var r := ApplyFrom(presets, k, resolve, invoke, s);
      match resolve(presets[k])
      case Skip =>
        assert r == ApplyFrom(presets, k + 1, resolve, invoke, s);
        ApplyFromSkipsOnlyMissing(presets, k + 1, resolve, invoke, s);
      case Abort(_, _) =>
      case Use(i, f) =>
        match invoke(f, s)
        case Raised(_) =>
        case Returned(s') =>
          var rest := ApplyFrom(presets, k + 1, resolve, invoke, s');
          var a := Applied(k, presets[k], i, f);
          assert r.applied == [a] + rest.applied;
          assert r.failure == rest.failure;
          ApplyFromSkipsOnlyMissing(presets, k + 1, resolve, invoke, s');
          var stop := StopPosition(presets, r.failure);
          assert SkippedOnlyMissing(rest.applied, presets, k + 1, stop, resolve);
          assert AppliedAt(r.applied, k) by { assert r.applied[0].position == k; }
          forall p: nat | AppliedAt(rest.applied, p)
            ensures AppliedAt(r.applied, p)
          {
            var j :| 0 <= j < |rest.applied| && rest.applied[j].position == p;
            assert r.applied[j + 1] == rest.applied[j];
          }
    }
  }

  /** The applied exports were invoked once each, in order, each on the state the
      previous one left; a failing lookup or a throwing preset ends the loop. */
  lemma {:induction false} ApplyFromChainsState<S, F>(presets: seq<string>, k: nat,
                                                          resolve: string -> Resolution<F>,
                                                          invoke: (F, S) -> Invocation<S>, s: S)
    requires k <= |presets|
    ensures var r := ApplyFrom(presets, k, resolve, invoke, s);
            && (r.failure.None? ==> Chain(invoke, s, Exports(r.applied)) == Returned(r.state))
            && (r.failure.Some? && r.failure.value.LoadFailed? ==>
                  var res := resolve(presets[r.failure.value.position]);
                  && res.Abort? && res.message == r.failure.value.message
                  && r.failure.value.candidate == res.index
                  && Chain(invoke, s, Exports(r.applied)) == Returned(r.state))
            && (r.failure.Some? && r.failure.value.PresetThrew? ==>
                  var res := resolve(presets[r.failure.value.position]);
                  && res.Use?
                  && Chain(invoke, s, Exports(r.applied) + [res.fn]) == Raised(r.failure.value.message)
                  && Chain(invoke, s, Exports(r.applied)) == Returned(r.state)
                  && invoke(res.fn, r.state) == Raised(r.failure.value.message))
    decreases |presets| - k
  {
    if k < |presets| {
      match resolve(presets[k])
      case Skip =>
        ApplyFromChainsState(presets, k + 1, resolve, invoke, s);
      case Abort(_, _) =>
      case Use(i, f) =>
        match invoke(f, s)
        case Raised(_) =>
          assert Exports<F>([]) + [f] == [f];
        case Returned(s') =>
          ApplyFromChainsState(presets, k + 1, resolve, invoke, s');
          var rest := ApplyFrom(presets, k + 1, resolve, invoke, s');
          var a := Applied(k, presets[k], i, f);
          assert Exports([a] + rest.applied) == [f] + Exports(rest.applied);
          assert ([f] + Exports(rest.applied))[1..] == Exports(rest.applied);
          if rest.failure.Some? && rest.failure.value.PresetThrew? {
            var res := resolve(presets[rest.failure.value.position]);
            assert ([f] + Exports(rest.applied) + [res.fn])[1..] == Exports(rest.applied) + [res.fn];
          }
    }
  }

  /** Candidate lookup for every preset reference, against one working directory. */
  function Resolver<F>(cwd: string, loader: string -> Load<F>): string -> Resolution<F> {
    preset => ResolvePreset(cwd, preset, loader)
  }

  /** The constructor: apply every preset, then merge the project's override
      (`None` when the package file, its key or the read is missing) as the last layer. */
  function Construct<S, F, O>(presets: seq<string>, cwd: string, loader: string -> Load<F>,
                              invoke: (F, S) -> Invocation<S>, override: Option<O>,
                              merge: (S, O) -> S, s0: S): (r: Construction<S, F>)
    ensures r.failure.None? ==>
              var c := Chain(invoke, s0, Exports(r.applied));
              c.Returned? && r.state == (if override.Some? then merge(c.state, override.value) else c.state)
    ensures FollowsResolution(r.applied, presets, Resolver(cwd, loader))
    ensures StopPosition(presets, r.failure) <= |presets|
    ensures SkippedOnlyMissing(r.applied, presets, 0, StopPosition(presets, r.failure), Resolver(cwd, loader))
    ensures r.failure.Some? ==> r.failure.value.position < |presets|
    ensures forall i :: 0 <= i < |r.applied| ==> r.applied[i].position < StopPosition(presets, r.failure)
    ensures r.failure.Some? && r.failure.value.LoadFailed? ==>
              var f := r.failure.value;
              ResolvePreset(cwd, presets[f.position], loader) == Abort(f.candidate, f.message)
              && Chain(invoke, s0, Exports(r.applied)) == Returned(r.state)
    ensures r.failure.Some? && r.failure.value.PresetThrew? ==>
              var res := ResolvePreset(cwd, presets[r.failure.value.position], loader);
              && res.Use? && Chain(invoke, s0, Exports(r.applied) + [res.fn]) == Raised(r.failure.value.message)
              && Chain(invoke, s0, Exports(r.applied)) == Returned(r.state)
              && invoke(res.fn, r.state) == Raised(r.failure.value.message)
  {
    var resolve := Resolver(cwd, loader);
    ApplyFromFollowsResolution(presets, 0, resolve, invoke, s0);
    ApplyFromSkipsOnlyMissing(presets, 0, resolve, invoke, s0);
    ApplyFromChainsState(presets, 0, resolve, invoke, s0);
    var c := ApplyFrom(presets, 0, resolve, invoke, s0);
    if c.failure.None? && override.Some? then c.(state := merge(c.state, override.value)) else c
  }
}
